=== FILE: README.md ===
# md — a markdown server, modelled in Dafny

`mds` serves one markdown file over HTTP as a styled HTML page. A light or a
dark theme can be switched at run time from a console menu, which an
interrupt (Ctrl-C) opens; the menu can also change the served file or exit.
This project models the parts of the server that decide things:

- **Startup** (`startup.dfy`): the flags either end the process with the
  usage screen or give the initial configuration. The configuration's
  stylesheet matches the requested theme.
- **The configuration** (`structs.dfy`): `Config` and the theme invariant
  `styleBytes == (darkMode ? DARK : LIGHT)`.
- **The pause menu** (`control.dfy`): the signal loop as a pure step
  function over a list of events. Both revisions are modelled: `main.go`
  (`Step`, `Run`) and the older `mds.go` (`StepOld`, `RunOld`). They share
  one `Transition`, which takes as parameters the reading of the menu line
  and what an invalid choice does.
- **A request** (`render.dfy`): read the configured file, then answer 404, a
  templated page (for `.md` files), or the raw bytes with a computed
  decimal Content-Length. Both `lib/render/render.go` and the older render of
  `mds.go` are modelled, plus the handler that picks the light or dark
  converter.
- **The whole server** (`server.dfy`): requests served between steps of the
  loop, with scenarios from startup onward.
- **The cross-compile script** (`build.dfy`): the argument check, the twelve
  targets in architecture-major order, the `.exe` suffix for Windows only,
  the environment of each build, and pairwise distinct artifact names.
- **Helpers**:
  - `text.dfy`: the Go library behaviour the core relies on, namely
    `strings.HasSuffix`, `strings.Trim`, `strings.TrimSpace`,
    `filepath.Split` with `/`, and the field a `fmt.Scanln` stores.
  - `decimal.dfy`: `strconv.Itoa`, `strconv.ParseInt`, and what
    `fmt.Scanf("%d")` stores.
  - `maybe.dfy`: `Option`.

Several things are parameters of the model:

- Console input: each interrupt carries the menu line typed and, when
  item 2 asks for it, the file line (`None` when the read fails).
- The file system: a function from names to `Option` of bytes.
- The markdown engine: an uninterpreted `Converter`.

Signals are handled one at a time. A Kill that the loop sends to itself
(item 3) waits in the model's state and ends the process on the next pass
(see "## Left out" for how this differs from the program).

Where the code and the behaviour one might expect differ, the model follows
the code:

- A failed markdown conversion is only logged. The comment on `errorText`
  (lib/render/render.go:18) calls it the text to display, yet the page
  carries whatever HTML the converter wrote
  (`Render.ConversionFailureIgnored`).
- A file line that becomes empty after the quotes are trimmed sets the file
  name to `""`. The name is kept only when the read itself fails
  (main.go:144-146).
- In `main.go` an invalid menu choice returns to running. The comment at
  main.go:156 expects the double-interrupt branch to be reached, but it can
  only be reached while a Kill is already queued, so it is never taken
  (`Control.CurrentNeverFatal`).

## Model

| member | source | states |
|---|---|---|
| Structs.StyleFor | main.go:56-62 | the dark stylesheet is chosen exactly when dark mode is on, the light one exactly when it is off |
| Structs.ConsistentStyleTellsTheme | lib/structs/config.go:4-9 | in a configuration that keeps the theme invariant, the style bytes alone tell whether dark mode is on |
| Startup.Usage | main.go:182-189 | usage always exits with status 0, and prints an "Error: " line exactly when the note is non-empty |
| Startup.Start | main.go:46-62 | --help shows usage with no error; otherwise an empty --file shows usage with the missing-file note; the server starts iff neither applies, with every flag copied and the stylesheet matching --dark |
| Startup.DefaultsNeedAFile | main.go:39-50 | with every flag at its default, the program stops at the usage screen with the missing-file error |
| Text.Split | lib/render/render.go:37 | the two parts concatenate to the path; the file part has no `/`; the directory part is empty or ends in `/` |
| Text.SplitUnique | lib/render/render.go:37 | those three properties determine the split: any cut that has them is the one Split returns |
| Text.BaseNameKeepsSuffix | lib/render/render.go:31-38 | the name shown in the page ends the path, and keeps any `/`-free suffix the path has, such as `.md` |
| Text.TrimOfDecomposition | main.go:142 | trimming a name wrapped in any number of trimmed characters on each side gives back exactly the name |
| Text.SpaceFreeField | main.go:119-121 | a line without spaces is stored whole by the line scan and is untouched by TrimSpace |
| Decimal.ItoaRoundTrip | lib/render/render.go:44 | parsing the decimal text of any 64-bit integer gives that integer back |
| Decimal.LengthRoundTrip | lib/render/render.go:44 | the Content-Length text of any body of at most 2^63-1 bytes parses back to its length |
| Decimal.ScanInt | mds.go:125-126 | whatever the %d scan stores lies in the 64-bit range |
| Decimal.ScanIntOfItoa | mds.go:125-126 | a line holding the decimal text of a 64-bit integer is scanned as that integer |
| Render.RendererFor | main.go:86-90 | the dark converter is used exactly when the configuration read is in dark mode |
| Render.Render | lib/render/render.go:22-47 | a failed read is the 404 answer, naming the file; a readable `.md` path is a page with the converter's HTML, the configured stylesheet and the base name, which ends in `.md`; any other readable file comes back unchanged with status 200 and a computed Content-Length in canonical decimal form (non-empty, digits only, no leading zero unless the body is empty) that parses back to its size |
| Render.Handle | main.go:84-91 | a request is rendered with the dark converter when dark mode is on and the light one otherwise |
| Render.RenderOld | mds.go:195-211 | a failed read is a 404 with the older wording; every readable file becomes a page, whatever its name, and never raw bytes |
| Render.HandleOld | mds.go:90-97 | the older handler dispatches on dark mode the same way |
| Render.ConversionFailureIgnored | lib/render/render.go:33-36 | the success a conversion reports never changes the answer, only the HTML it wrote does |
| Render.RevisionsAgreeOnMarkdown | mds.go:195-211 | for a readable file the two revisions give the same answer exactly when the name ends in `.md` |
| Render.UpperCaseSuffixIsRaw | lib/render/render.go:31 | the suffix test is case-sensitive: `README.MD` is served as raw bytes |
| Render.PageThemeMatchesRenderer | main.go:84-91 | from a consistent configuration, a page carries the dark stylesheet exactly when the dark converter produced its body |
| Control.Toggle | main.go:124-135 | item 1 flips dark mode, loads the matching stylesheet and keeps the file name and MathJax flag |
| Control.ChangeFile | main.go:136-147 | item 2 keeps the theme and MathJax; a failed read keeps the configuration; a read line gives a name no longer than the line, with no `"` at either end |
| Control.Transition | main.go:105-166 | a terminated loop never moves; the theme invariant and the MathJax flag always survive; dark mode changes only by item 1 from an idle loop, and the file name only by item 2 with a line read; ending keeps the configuration; a fatal end needs an interrupt while paused; a live loop stays paused only with a Kill queued or, in the older revision, after an invalid choice |
| Control.Step | main.go:105-166 | in the current revision, changes to dark mode or the file name need the text reading of the menu line to name item 1 or item 2, and a live paused loop always has a Kill queued |
| Control.StepOld | mds.go:111-169 | in the older revision a terminated loop never moves and the theme invariant survives; dark mode changes only by item 1 and the file name only by item 2 with a line read, from an idle loop, as the %d reading of the line names them; a live loop stays paused only with a Kill queued or after a line the %d reading finds invalid |
| Control.ToggleStep | main.go:124-135 | item 1 from an idle loop returns to running with the theme flipped and the matching stylesheet loaded: DARK when the new mode is dark, LIGHT when it is light |
| Control.ToggleTwice | main.go:124-135 | toggling twice restores the whole state |
| Control.ChangeFileStep | main.go:136-147 | item 2 returns to running with the quote-trimmed line as the file name, or the old name when the read failed, and the rest unchanged |
| Control.QuotedNameTrimmed | main.go:142 | every `"` around a name is removed, however many there are on each side |
| Control.ExitStep | main.go:148-150 | item 3 keeps the menu paused and queues a Kill, so the next pass ends the process normally, whatever signal comes next |
| Control.InvalidStep | main.go:151-153 | any other line leaves the state exactly as it was before the interrupt |
| Control.KillStep | main.go:160-163 | a Kill ends a live loop normally and keeps the configuration |
| Control.InterruptWhilePausedIsFatal | main.go:155-159 | an interrupt that arrives while `paused` is still set and no Kill is queued takes the log.Fatal branch in both revisions, configuration untouched; only the older revision reaches that state, after an invalid choice |
| Control.TerminatedIsFinal | main.go:176-178 | after the process ends, no signal changes anything |
| Control.RunKeepsTheme | main.go:105-166 | no sequence of signals breaks the theme invariant or changes the MathJax flag, in either revision |
| Control.CurrentNeverFatal | main.go:155-159 | from a fresh start, the current revision never reaches its fatal branch, whatever the signals |
| Control.OldInvalidThenInterruptIsFatal | mds.go:155-162 | in the older revision, an invalid choice followed by another interrupt ends the process fatally |
| Control.RevisionsAgree | mds.go:125-154 | whenever the older reading of one line and the current reading of another name the same item 1 to 3, the older step on the first equals the current step on the second |
| Control.RevisionsDivergeOnInvalid | mds.go:155-157 | a line both readings find invalid keeps the configuration in both revisions, but only the current one leaves the pause |
| Control.DigitLinesAgree | main.go:123-148 | the lines "1", "2" and "3" select items 1, 2 and 3 under both readings |
| Control.OlderReadsNumber | mds.go:126-157 | in the older revision a scanned 1, 2 or 3 selects items 1, 2 or 3, and any other scanned number is an invalid choice |
| Control.UnreadLineIsInvalid | mds.go:125-157 | a line the %d scan cannot read leaves the choice at 0, so the older revision takes it as an invalid choice |
| Control.LeadingZeroDiverges | mds.go:126-128 | "01" is item 1 under the older %d reading and invalid under the current text reading |
| Server.AfterOne | main.go:105-107 | one signal after startup is one pass of the loop |
| Server.NoTornTheme | main.go:84-91 | when each request reads one whole configuration between passes of the loop, then after any sequence of signals a page from a started server carries the dark stylesheet exactly when the dark converter produced it |
| Server.RacyHandle | main.go:84-91 | the handler reading the dark-mode flag from one configuration and copying another: the page's stylesheet comes from the copy and its body from the converter the flag picked; with one configuration it is the ordinary handler |
| Server.TornThemeRequests | main.go:124-135 | on a light server, a toggle completed between the flag read and the copy gives a light body with the dark stylesheet, and a request between the writes of the flag and of the stylesheet gives a dark body with the light stylesheet |
| Server.ToggleThenRequest | main.go:124-135 | after item 1 on a light server, the next markdown page is dark in both stylesheet and body, for the same file |
| Server.ChangeFileThenRequest | main.go:136-147 | after item 2 with an unquoted name, the next request is answered as if that name had been configured from the start |
| Server.InvalidThenRequest | main.go:151-153 | after an invalid choice, the loop is idle again and the next request is answered exactly as before |
| Build.Suffix | build/build.go:23-28 | the suffix is `.exe` exactly for Windows and empty otherwise |
| Build.MakeJob | build/build.go:30-34 | a build's environment is the inherited one followed by GOARCH and then GOOS; its file name ends in the target's suffix |
| Build.Row | build/build.go:22-36 | the inner loop makes one build per operating system, in order |
| Build.Grid | build/build.go:21-37 | the outer loop makes one build per architecture and operating system pair, at position i·|oses| + j |
| Build.Main | build/build.go:15-38 | fewer than three arguments is refused with exit status 1, the usage message and no build; otherwise twelve builds, the k-th for architecture k/3 and operating system k%3 |
| Build.NameDeterminesTarget | build/build.go:30 | an artifact name determines its target architecture and operating system |
| Build.ArtifactNamesDistinct | build/build.go:10-13 | the twelve artifact names are pairwise distinct |

## Left out

- HTTP serving, the favicon route and the listening port: the model answers
  one request as a value. The Content-Type header is not modelled.
- Render.Render: keeps the Content-Length value that
  `lib/render/render.go:44` computes, but the program never sends it. That
  header, like the Content-Type, is set after `WriteHeader(200)`, and
  net/http ignores header changes made after that call.
- Interrupts typed at the menu prompt: while the menu is showing, the loop is
  blocked reading the console. The first Ctrl-C waits in the one-slot signal
  channel, and any further Ctrl-C is dropped because the channel is full. The
  model takes every interrupt as its own event, handled once the current
  choice is done.
- Item 3 after an interrupt typed at the prompt: that interrupt already fills
  the channel, so the self-send `signals <- os.Kill` (main.go:150,
  mds.go:154) blocks forever. The loop is the channel's only receiver, so
  `done` is never sent and the process hangs. The model instead ends with
  `Done` on the next pass.
- A Kill from outside: `os.Kill` is SIGKILL, which `signal.Notify` cannot
  catch, so the only Kill the loop receives is the one item 3 sends it. The
  model's `Kill` event has no outside counterpart. An outside SIGKILL ends the
  process without `done`, which is not modelled. The lemmas range over all
  events, so this extra event only makes them stronger.
- The template and its output: a page is the value handed to the template.
- The markdown engine (Goldmark with its extensions and highlighting styles)
  is an uninterpreted converter. MathJax is only a flag carried along.
- The stylesheet assets: `DARK` and `LIGHT` are two distinct placeholder byte
  strings, not the embedded CSS.
- Goroutines and concurrency. The two signal-channel events are handled one
  at a time. Apart from Server.RacyHandle, a request reads the configuration
  between two passes of the loop, never in the middle of one.
- Server.NoTornTheme: holds only for the model's requests, each of which
  reads one whole snapshot of the configuration. main.go reads and writes
  `config` from two goroutines without synchronisation, and
  Server.TornThemeRequests shows the pages that can result.
- The self-sent Kill of item 3: in the program, when the channel is empty,
  the loop receives it at once and ends the process without any further
  signal. In the model the queued
  Kill waits in the state until the next event arrives. That pass ends the
  process and the event itself is dropped. So a trace that stops right after
  item 3 leaves the model's loop live, with the Kill still queued.
- Byte strings: Go strings are bytes, but file names and console lines are
  Dafny strings of characters. For valid UTF-8 this changes nothing, since the
  quote cutset, the `/` separator and the `.md` suffix are all ASCII.
- Decimal.ScanInt: stores into a 64-bit integer, while `var choice int` is
  32 bits wide on the 386 and arm targets. The menu item chosen is the same
  either way, since only 1, 2 and 3 select an item.
- Flag parsing, logging, console output and `os.Exit`. A launch is a value
  (usage screen or configuration), and a fatal log call is the `Fatal`
  ending.
- The usage text with the program's base name substituted, because it is
  output only.
- Console input left over after a menu line is not modelled. Each
  interrupt carries its own lines.
- `exec.Command` and the result of `go build`: the script is modelled as the
  list of builds it starts.
- Path separators other than `/`.
- Line ends: each console line is given without its newline. How a line
  scan treats `\r\n` is not modelled.
- Control.MenuChoice: has no contract of its own. Its readings are stated
  through Control.DigitLinesAgree and Control.LeadingZeroDiverges.

## Findings

| source | as written | input that shows it | evidently intended | confidence | as-written member | corrected member |
|---|---|---|---|---|---|---|
| mds.go:155-157 | an invalid menu choice leaves `paused` set, so the loop waits for a signal with the menu marked as showing | interrupt, type `4`, then interrupt again: the second interrupt is fatal ("Interrupt received twice") | return to running after an invalid choice, as `main.go:151-153` does | medium, not executed | Control.OldInvalidThenInterruptIsFatal | Control.CurrentNeverFatal |
| main.go:86-89 | the handler reads `config.DarkMode` and then copies `config`, while the loop writes `DarkMode` (main.go:126) before `StyleBytes` (main.go:129/132), with no synchronisation | a request on a light server that reads the flag just before a toggle and copies the configuration just after it | every request sees one consistent configuration | medium, not executed | Server.TornThemeRequests | Server.NoTornTheme |

=== FILE: build.dfy ===
/** The cross-compilation script (build/build.go): given a program name and a
    version, it builds one binary per architecture and operating system, with
    the architecture in the outer loop and the operating system in the inner
    one. Running the Go tool is left out; the model produces the list of
    builds, each with its output file name and environment. */
module Build {
  import Text

  const ARCHS: seq<string> := ["386", "amd64", "arm", "arm64"]
  const OSES: seq<string> := ["linux", "windows", "darwin"]

  const ARGS_ERROR := "Program name and version number required, e.g. \"mds\" and \"v1.1.0\"\n"

  /** One `go build -o <fileName>` with the given environment. */
  datatype Job = Job(fileName: string, env: seq<string>)

  /** Either the message printed to standard error and the exit status, or
      the builds attempted, in order. */
  datatype Outcome =
    | Refused(stderr: string, exitCode: int)
    | Jobs(jobs: seq<Job>)

  /** Windows binaries get `.exe`; the others no suffix. */
  function Suffix(os: string): (s: string)
    ensures s == ".exe" <==> os == "windows"
    ensures s == "" <==> os != "windows"
  {
    if os == "windows" then ".exe" else ""
  }

  /** The output name `prog-version-arch-os` followed by the suffix. */
  function ArtifactName(prog: string, version: string, arch: string, os: string): string {
    prog + "-" + version + "-" + (arch + "-" + os + Suffix(os))
  }

  /** The build for one target: the current environment, then GOARCH, then
      GOOS. */
  function MakeJob(prog: string, version: string, arch: string, os: string, environ: seq<string>): (j: Job)
    ensures |j.env| == |environ| + 2
    ensures j.env[..|environ|] == environ
    ensures j.env[|environ|] == "GOARCH=" + arch && j.env[|environ| + 1] == "GOOS=" + os
    ensures Text.HasSuffix(j.fileName, Suffix(os))
  {
    var name := ArtifactName(prog, version, arch, os);
    Text.HasSuffixOfAppend(prog + "-" + version + "-" + (arch + "-" + os), Suffix(os));
    assert name == prog + "-" + version + "-" + (arch + "-" + os) + Suffix(os);
    Job(name, environ + ["GOARCH=" + arch, "GOOS=" + os])
  }

  /** The inner loop: one architecture, every operating system in order. */
  function Row(prog: string, version: string, arch: string, oses: seq<string>, environ: seq<string>): (row: seq<Job>)
    ensures |row| == |oses|
    ensures forall j :: 0 <= j < |oses| ==> row[j] == MakeJob(prog, version, arch, oses[j], environ)
  {
    if oses == [] then []
    else [MakeJob(prog, version, arch, oses[0], environ)] + Row(prog, version, arch, oses[1..], environ)
  }

  /** Where the build for the i-th architecture and the j-th operating
      system sits when each architecture contributes n builds. */
  function Position(i: nat, j: nat, n: nat): nat {
    i * n + j
  }

  /** The outer loop: every architecture in order, each followed by its row. */
  function Grid(prog: string, version: string, archs: seq<string>, oses: seq<string>, environ: seq<string>): (jobs: seq<Job>)
    ensures |jobs| == |archs| * |oses|
    ensures forall i, j :: 0 <= i < |archs| && 0 <= j < |oses| ==>
      Position(i, j, |oses|) < |jobs| && jobs[Position(i, j, |oses|)] == MakeJob(prog, version, archs[i], oses[j], environ)
  {
    if archs == [] then []
    else
      var row := Row(prog, version, archs[0], oses, environ);
      var rest := Grid(prog, version, archs[1..], oses, environ);
      GridStep(prog, version, archs, archs[1..], oses, environ, row, rest);
      row + rest
  }

  /** A row of n builds followed by k - 1 rows makes k rows. */
  lemma RowThenRest(k: nat, n: nat)
    requires k >= 1
    ensures n + (k - 1) * n == k * n
  {
  }

  /** The first row starts at position 0. */
  lemma PositionInFirstRow(j: nat, n: nat)
    ensures Position(0, j, n) == j
  {
  }

  /** The position one row further down is n places further on. */
  lemma PositionShift(i: nat, j: nat, n: nat)
    requires i >= 1
    ensures Position(i, j, n) == n + Position(i - 1, j, n)
  {
  }

  /** One step of the outer loop: a row followed by the grid of the remaining
      architectures is the grid of all of them. */
  lemma GridStep(prog: string, version: string, archs: seq<string>, tail: seq<string>, oses: seq<string>,
                 environ: seq<string>, row: seq<Job>, rest: seq<Job>)
    requires archs != [] && tail == archs[1..]
    requires row == Row(prog, version, archs[0], oses, environ)
    requires |rest| == |tail| * |oses|
    requires forall i, j :: 0 <= i < |tail| && 0 <= j < |oses| ==>
      Position(i, j, |oses|) < |rest| && rest[Position(i, j, |oses|)] == MakeJob(prog, version, tail[i], oses[j], environ)
    ensures |row + rest| == |archs| * |oses|
    ensures forall i, j :: 0 <= i < |archs| && 0 <= j < |oses| ==>
      Position(i, j, |oses|) < |row + rest|
      && (row + rest)[Position(i, j, |oses|)] == MakeJob(prog, version, archs[i], oses[j], environ)
  {
    var n := |oses|;
    RowThenRest(|archs|, n);
    forall i, j | 0 <= i < |archs| && 0 <= j < n
      ensures Position(i, j, n) < |row + rest|
      ensures (row + rest)[Position(i, j, n)] == MakeJob(prog, version, archs[i], oses[j], environ)
    {
      var p := Position(i, j, n);
      if i == 0 {
        PositionInFirstRow(j, n);
        assert (row + rest)[p] == row[j];
      } else {
        PositionShift(i, j, n);
        var q := Position(i - 1, j, n);
        assert q < |rest| && rest[q] == MakeJob(prog, version, tail[i - 1], oses[j], environ);
        assert (row + rest)[p] == rest[q];
        assert tail[i - 1] == archs[i];
      }
    }
  }

  /** build.go's main: fewer than three arguments (the program itself, a name
      and a version) is refused with exit status 1 and no build; otherwise
      all twelve targets are built, architecture-major. */
  function Main(args: seq<string>, environ: seq<string>): (r: Outcome)
    ensures r.Refused? <==> |args| < 3
    ensures r.Refused? ==> r.exitCode == 1 && r.stderr == ARGS_ERROR
    ensures r.Jobs? ==> |r.jobs| == |ARCHS| * |OSES| == 12
    ensures r.Jobs? ==> forall k :: 0 <= k < |r.jobs| ==>
      r.jobs[k] == MakeJob(args[1], args[2], ARCHS[k / |OSES|], OSES[k % |OSES|], environ)
  {
    if |args| < 3 then Refused(ARGS_ERROR, 1)
    else
      var jobs := Grid(args[1], args[2], ARCHS, OSES, environ);
      GridPositions(args[1], args[2], environ);
      Jobs(jobs)
  }

  /** Position k of the twelve builds is target (k / 3, k % 3). */
  lemma GridPositions(prog: string, version: string, environ: seq<string>)
    ensures var jobs := Grid(prog, version, ARCHS, OSES, environ);
      forall k :: 0 <= k < |jobs| ==>
        jobs[k] == MakeJob(prog, version, ARCHS[k / |OSES|], OSES[k % |OSES|], environ)
  {
    var jobs := Grid(prog, version, ARCHS, OSES, environ);
    forall k | 0 <= k < |jobs|
      ensures jobs[k] == MakeJob(prog, version, ARCHS[k / |OSES|], OSES[k % |OSES|], environ)
    {
      PositionOfIndex(k, |ARCHS|, |OSES|);
    }
  }

  /** Index k of m rows of n builds is row k / n, column k % n. */
  lemma PositionOfIndex(k: nat, m: nat, n: nat)
    requires k < m * n
    ensures n > 0 && k / n < m && k % n < n
    ensures Position(k / n, k % n, n) == k
  {
  }

  /** Where the first `-` sits in a name that starts with a dash-free part. */
  lemma FirstDash(a: string, r: string)
    requires '-' !in a
    ensures (a + "-" + r)[|a|] == '-'
    ensures forall k :: 0 <= k < |a| ==> (a + "-" + r)[k] != '-'
  {
  }

  /** Two names built from dash-free leading parts agree only when the
      leading parts agree and so does everything after the first `-`. */
  lemma DashFreePrefixUnique(a1: string, r1: string, a2: string, r2: string)
    requires '-' !in a1 && '-' !in a2
    requires a1 + "-" + r1 == a2 + "-" + r2
    ensures a1 == a2 && r1 == r2
  {
    var s := a1 + "-" + r1;
    FirstDash(a1, r1);
    FirstDash(a2, r2);
    assert |a1| == |a2|;
    assert a1 == s[..|a1|] == a2;
    assert r1 == s[|a1| + 1..] == r2;
  }

  /** The architecture names are distinct and free of `-`. */
  lemma ArchsDashFreeAndDistinct()
    ensures forall x :: 0 <= x < |ARCHS| ==> '-' !in ARCHS[x]
    ensures forall x, y :: 0 <= x < y < |ARCHS| ==> ARCHS[x] != ARCHS[y]
  {
    assert ARCHS[0][0] != ARCHS[2][0];
    assert ARCHS[1][1] != ARCHS[3][1];
  }

  /** Each operating system with its suffix is distinct from the others. */
  lemma OsTailsDistinct()
    ensures forall x, y :: 0 <= x < y < |OSES| ==> OSES[x] + Suffix(OSES[x]) != OSES[y] + Suffix(OSES[y])
  {
    assert |OSES[0] + Suffix(OSES[0])| == 5;
    assert |OSES[1] + Suffix(OSES[1])| == 11;
    assert |OSES[2] + Suffix(OSES[2])| == 6;
  }

  /** A file name tells which of the twelve targets it was built for. */
  lemma NameDeterminesTarget(prog: string, version: string, i1: nat, j1: nat, i2: nat, j2: nat)
    requires i1 < |ARCHS| && i2 < |ARCHS| && j1 < |OSES| && j2 < |OSES|
    ensures ArtifactName(prog, version, ARCHS[i1], OSES[j1]) == ArtifactName(prog, version, ARCHS[i2], OSES[j2])
      ==> i1 == i2 && j1 == j2
  {
    var prefix := prog + "-" + version + "-";
    var a1, o1, a2, o2 := ARCHS[i1], OSES[j1], ARCHS[i2], OSES[j2];
    var t1 := a1 + "-" + (o1 + Suffix(o1));
    var t2 := a2 + "-" + (o2 + Suffix(o2));
    assert ArtifactName(prog, version, a1, o1) == prefix + t1;
    assert ArtifactName(prog, version, a2, o2) == prefix + t2;
    if prefix + t1 == prefix + t2 {
      assert t1 == (prefix + t1)[|prefix|..];
      assert t2 == (prefix + t2)[|prefix|..];
      ArchsDashFreeAndDistinct();
      OsTailsDistinct();
      assert a1 + "-" + (o1 + Suffix(o1)) == t1;
      DashFreePrefixUnique(a1, o1 + Suffix(o1), a2, o2 + Suffix(o2));
      assert i1 == i2;
      assert j1 == j2;
    }
  }

  /** All twelve artifact names differ. */
  lemma ArtifactNamesDistinct(args: seq<string>, environ: seq<string>)
    requires |args| >= 3
    ensures forall p, q :: 0 <= p < q < |Main(args, environ).jobs| ==>
      Main(args, environ).jobs[p].fileName != Main(args, environ).jobs[q].fileName
  {
    var jobs := Main(args, environ).jobs;
    forall p, q | 0 <= p < q < |jobs|
      ensures jobs[p].fileName != jobs[q].fileName
    {
      NameDeterminesTarget(args[1], args[2], p / 3, p % 3, q / 3, q % 3);
    }
  }
}

=== FILE: control.dfy ===
/** The signal-handling loop of the server: an interrupt pauses it and shows
    a three-item menu (toggle dark mode, change the file, exit); a kill ends
    the process. Console input arrives as the payload of each interrupt, and
    the loop is a pure step function over a sequential list of events.

    Two revisions exist. The current one (main.go) reads the choice as text
    and returns to running after an invalid choice; the older one (mds.go)
    reads it with a %d scan, defaulting to 0, and stays paused after an invalid
    choice. Both are the one step function below, parameterised by those two
    differences (see Revision). */
module Control {
  import opened Maybe
  import opened Structs
  import Text
  import Decimal

  /** A signal as the loop receives it. An interrupt carries the console line
      typed at the menu prompt and, should the menu ask for one, the
      replacement file line (None when reading it fails). */
  datatype Event =
    | Interrupt(menuLine: string, fileLine: Option<string>)
    | Kill

  /** How the process ended: the main routine was released (`done`), or a
      fatal log call exited it. */
  datatype Ending = Done | Fatal

  datatype Phase = Live | Terminated(ending: Ending)

  /** The loop's state: its phase, the pause flag, whether a Kill it sent to
      itself is waiting in the signal channel, and the configuration it
      edits. */
  datatype State = State(phase: Phase, paused: bool, pendingKill: bool, config: Config)

  /** The two revisions of the loop: main.go and the older mds.go. */
  datatype Revision = Current | Older

  /** The menu items, plus anything else. */
  datatype Choice = ToggleTheme | NewFile | Exit | Invalid

  /** The loop before any signal. */
  function Init(c: Config): State {
    State(Live, false, false, c)
  }

  /** Waiting for a signal, with nothing queued and the menu not showing. */
  predicate Idle(s: State) {
    s.phase.Live? && !s.paused && !s.pendingKill
  }

  /** The current revision's reading of the menu line: the field a line scan
      stores, with surrounding space trimmed, compared as text. */
  function MenuChoice(line: string): Choice
  {
    var choice := Text.TrimSpace(Text.FirstField(line));
    if choice == "1" then ToggleTheme
    else if choice == "2" then NewFile
    else if choice == "3" then Exit
    else Invalid
  }

  /** The older revision's reading: the integer a %d scan stores, 0 when the
      scan fails. */
  function MenuChoiceOld(line: string): Choice
  {
    var choice := Decimal.ScanInt(line).GetOr(0);
    if choice == 1 then ToggleTheme
    else if choice == 2 then NewFile
    else if choice == 3 then Exit
    else Invalid
  }

  /** Menu item 1: flip dark mode and load the matching stylesheet. */
  function Toggle(c: Config): (r: Config)
    ensures r.darkMode == !c.darkMode
    ensures r.fileName == c.fileName && r.mathJax == c.mathJax
    ensures ThemeConsistent(r)
    ensures r.styleBytes == DARK <==> r.darkMode
  {
    c.(darkMode := !c.darkMode, styleBytes := StyleFor(!c.darkMode))
  }

  /** Menu item 2: a line that was read becomes the file name, with every
      leading and trailing `"` removed; a failed read changes nothing. */
  function ChangeFile(c: Config, fileLine: Option<string>): (r: Config)
    ensures r.darkMode == c.darkMode && r.mathJax == c.mathJax && r.styleBytes == c.styleBytes
    ensures fileLine.None? ==> r == c
    ensures fileLine.Some? ==> |r.fileName| <= |fileLine.value|
    ensures fileLine.Some? && r.fileName != [] ==> r.fileName[0] != '"' && r.fileName[|r.fileName| - 1] != '"'
  {
    match fileLine
    case None => c
    case Some(line) => c.(fileName := Text.TrimQuotes(line))
  }

  /** One pass of the loop, for either revision, given the menu item the
      event's console line selects (ignored unless the menu is shown). A Kill
      the loop queued for itself ends the process on the next pass, whatever
      event arrived; that event is dropped (the program needs no further
      event to take the Kill).
      Besides what each transition does, the contract states what a pass can
      change and when. */
  function Transition(s: State, e: Event, ch: Choice, rev: Revision): (r: State)
    ensures s.phase.Terminated? ==> r == s
    ensures r.config.mathJax == s.config.mathJax
    ensures ThemeConsistent(s.config) ==> ThemeConsistent(r.config)
    ensures r.config.darkMode != s.config.darkMode ==> Idle(s) && e.Interrupt? && ch == ToggleTheme
    ensures r.config.fileName != s.config.fileName ==> Idle(s) && e.Interrupt? && ch == NewFile && e.fileLine.Some?
    ensures s.phase.Live? && r.phase.Terminated? ==> r.config == s.config
    ensures r.phase == Terminated(Fatal) && s.phase.Live? ==> s.paused && !s.pendingKill && e.Interrupt?
    ensures r.phase.Live? && r.paused ==> r.pendingKill || (rev == Older && ch == Invalid)
  {
    if s.phase.Terminated? then s
    else if s.pendingKill then s.(phase := Terminated(Done), pendingKill := false)
    else
      match e
      case Kill => s.(phase := Terminated(Done))
      case Interrupt(_, fileLine) =>
        if s.paused then s.(phase := Terminated(Fatal))
        else
          match ch
          case ToggleTheme => s.(config := Toggle(s.config))
          case NewFile => s.(config := ChangeFile(s.config, fileLine))
          case Exit => s.(paused := true, pendingKill := true)
          case Invalid => s.(paused := rev == Older)
  }

  /** The menu item an event selects under a revision's reading of the line. */
  function Selected(e: Event, rev: Revision): Choice {
    match e
    case Kill => Invalid
    case Interrupt(line, _) => if rev == Older then MenuChoiceOld(line) else MenuChoice(line)
  }

  /** The current revision's step (main.go). */
  function Step(s: State, e: Event): (r: State)
    ensures s.phase.Terminated? ==> r == s
    ensures ThemeConsistent(s.config) ==> ThemeConsistent(r.config)
    ensures r.config.darkMode != s.config.darkMode ==>
      Idle(s) && e.Interrupt? && MenuChoice(e.menuLine) == ToggleTheme
    ensures r.config.fileName != s.config.fileName ==>
      Idle(s) && e.Interrupt? && MenuChoice(e.menuLine) == NewFile && e.fileLine.Some?
    ensures r.phase.Live? && r.paused ==> r.pendingKill
  {
    Transition(s, e, Selected(e, Current), Current)
  }

  /** The older revision's step (mds.go). */
  function StepOld(s: State, e: Event): (r: State)
    ensures s.phase.Terminated? ==> r == s
    ensures ThemeConsistent(s.config) ==> ThemeConsistent(r.config)
    ensures r.config.darkMode != s.config.darkMode ==>
      Idle(s) && e.Interrupt? && MenuChoiceOld(e.menuLine) == ToggleTheme
    ensures r.config.fileName != s.config.fileName ==>
      Idle(s) && e.Interrupt? && MenuChoiceOld(e.menuLine) == NewFile && e.fileLine.Some?
    ensures r.phase.Live? && r.paused ==>
      r.pendingKill || (e.Interrupt? && MenuChoiceOld(e.menuLine) == Invalid)
  {
    Transition(s, e, Selected(e, Older), Older)
  }

  /** The current revision over a list of events. */
  function Run(s: State, es: seq<Event>): State
    decreases |es|
  {
    if es == [] then s else Run(Step(s, es[0]), es[1..])
  }

  /** The older revision over a list of events. */
  function RunOld(s: State, es: seq<Event>): State
    decreases |es|
  {
    if es == [] then s else RunOld(StepOld(s, es[0]), es[1..])
  }

  // ---------------------------------------------------------------------
  // The menu, one item at a time
  // ---------------------------------------------------------------------

  /** Item 1 flips dark mode, swaps the stylesheet to match, keeps the file
      name and MathJax flag, and returns to running. */
  lemma ToggleStep(s: State, line: string, fileLine: Option<string>)
    requires Idle(s)
    requires MenuChoice(line) == ToggleTheme
    ensures var r := Step(s, Interrupt(line, fileLine));
      && Idle(r)
      && r.config.darkMode == !s.config.darkMode
      && ThemeConsistent(r.config)
      && (r.config.styleBytes == DARK <==> r.config.darkMode)
      && (r.config.styleBytes == LIGHT <==> !r.config.darkMode)
      && r.config.fileName == s.config.fileName
      && r.config.mathJax == s.config.mathJax
  {
  }

  /** Toggling twice restores the whole state, configuration included. */
  lemma ToggleTwice(s: State, l1: string, f1: Option<string>, l2: string, f2: Option<string>)
    requires Idle(s) && ThemeConsistent(s.config)
    requires MenuChoice(l1) == ToggleTheme && MenuChoice(l2) == ToggleTheme
    ensures Step(Step(s, Interrupt(l1, f1)), Interrupt(l2, f2)) == s
  {
  }

  /** Item 2 sets the file name to the quote-trimmed line when one was read,
      keeps it when the read failed, changes nothing else, and returns to
      running. */
  lemma ChangeFileStep(s: State, line: string, fileLine: Option<string>)
    requires Idle(s)
    requires MenuChoice(line) == NewFile
    ensures var r := Step(s, Interrupt(line, fileLine));
      && Idle(r)
      && r.config.fileName == (if fileLine.Some? then Text.TrimQuotes(fileLine.value) else s.config.fileName)
      && r.config.darkMode == s.config.darkMode
      && r.config.styleBytes == s.config.styleBytes
      && r.config.mathJax == s.config.mathJax
  {
  }

  /** `n` double quotes. */
  function Quotes(n: nat): (q: string)
    ensures |q| == n && forall k :: 0 <= k < n ==> q[k] == '"'
  {
    seq(n, _ => '"')
  }

  /** However many quotes surround a name on either side, all of them go; an
      empty line, or one of quotes only, gives the empty name. */
  lemma QuotedNameTrimmed(c: Config, name: string, before: nat, after: nat)
    requires name == [] || (name[0] != '"' && name[|name| - 1] != '"')
    ensures ChangeFile(c, Some(Quotes(before) + name + Quotes(after))).fileName == name
  {
    Text.TrimOfDecomposition(Quotes(before), name, Quotes(after), Text.IsQuote);
  }

  /** Item 3 keeps the menu paused and queues a Kill; whatever happens next,
      the queued Kill ends the process normally, configuration untouched. */
  lemma ExitStep(s: State, line: string, fileLine: Option<string>, next: Event)
    requires Idle(s)
    requires MenuChoice(line) == Exit
    ensures var r := Step(s, Interrupt(line, fileLine));
      && r.phase.Live? && r.paused && r.pendingKill && r.config == s.config
      && Step(r, next) == r.(phase := Terminated(Done), pendingKill := false)
  {
  }

  /** Any other line is reported and the loop returns to running with the
      configuration unchanged. */
  lemma InvalidStep(s: State, line: string, fileLine: Option<string>)
    requires Idle(s)
    requires MenuChoice(line) == Invalid
    ensures Step(s, Interrupt(line, fileLine)) == s
  {
  }

  /** A Kill ends a live loop normally and changes nothing else. */
  lemma KillStep(s: State)
    requires s.phase.Live?
    ensures Step(s, Kill).phase == Terminated(Done)
    ensures Step(s, Kill).config == s.config
  {
  }

  /** An interrupt that arrives while `paused` is still set and no Kill is
      queued takes the log.Fatal branch, configuration untouched. Only the
      older revision reaches that state, after an invalid choice (see
      CurrentNeverFatal and OldInvalidThenInterruptIsFatal). */
  lemma InterruptWhilePausedIsFatal(s: State, line: string, fileLine: Option<string>)
    requires s.phase.Live? && s.paused && !s.pendingKill
    ensures Step(s, Interrupt(line, fileLine)) == s.(phase := Terminated(Fatal))
    ensures StepOld(s, Interrupt(line, fileLine)) == s.(phase := Terminated(Fatal))
  {
  }

  // ---------------------------------------------------------------------
  // Traces
  // ---------------------------------------------------------------------

  /** Once terminated, nothing moves the loop again. */
  lemma {:induction false} TerminatedIsFinal(s: State, es: seq<Event>)
    requires s.phase.Terminated?
    ensures Run(s, es) == s
    ensures RunOld(s, es) == s
    decreases |es|
  {
    if es != [] {
      TerminatedIsFinal(s, es[1..]);
    }
  }

  /** No sequence of events breaks the theme invariant, and none touches the
      MathJax flag. */
  lemma {:induction false} RunKeepsTheme(s: State, es: seq<Event>)
    requires ThemeConsistent(s.config)
    ensures ThemeConsistent(Run(s, es).config) && Run(s, es).config.mathJax == s.config.mathJax
    ensures ThemeConsistent(RunOld(s, es).config) && RunOld(s, es).config.mathJax == s.config.mathJax
    decreases |es|
  {
    if es != [] {
      RunKeepsTheme(Step(s, es[0]), es[1..]);
      RunKeepsTheme(StepOld(s, es[0]), es[1..]);
    }
  }

  /** In the current revision the menu only stays paused after item 3, which
      has already queued a Kill. */
  predicate PausedOnlyToExit(s: State) {
    s.phase.Live? && s.paused ==> s.pendingKill
  }

  /** Hence, when signals are handled one at a time, the current revision
      never reaches its fatal double-interrupt branch from a fresh start. */
  lemma {:induction false} CurrentNeverFatal(s: State, es: seq<Event>)
    requires PausedOnlyToExit(s) && s.phase != Terminated(Fatal)
    ensures Run(s, es).phase != Terminated(Fatal)
    decreases |es|
  {
    if es != [] {
      CurrentNeverFatal(Step(s, es[0]), es[1..]);
    }
  }

  /** In the older revision an invalid choice leaves the menu paused, so the
      very next interrupt is fatal, configuration unchanged. */
  lemma OldInvalidThenInterruptIsFatal(c: Config, l1: string, f1: Option<string>, l2: string, f2: Option<string>)
    requires MenuChoiceOld(l1) == Invalid
    ensures RunOld(Init(c), [Interrupt(l1, f1), Interrupt(l2, f2)]) == State(Terminated(Fatal), true, false, c)
  {
    var es := [Interrupt(l1, f1), Interrupt(l2, f2)];
    var s1 := StepOld(Init(c), Interrupt(l1, f1));
    assert s1 == State(Live, true, false, c);
    var s2 := StepOld(s1, Interrupt(l2, f2));
    assert s2 == State(Terminated(Fatal), true, false, c);
    assert es[1..] == [Interrupt(l2, f2)];
    assert RunOld(Init(c), es) == RunOld(s1, [Interrupt(l2, f2)]);
    assert [Interrupt(l2, f2)][1..] == [];
    assert RunOld(s1, [Interrupt(l2, f2)]) == RunOld(s2, []);
  }

  // ---------------------------------------------------------------------
  // The two revisions side by side
  // ---------------------------------------------------------------------

  /** Whenever the older revision's reading of one line and the current
      revision's reading of another name the same menu item, the two revisions
      take the same step: items 1 to 3 have the same effect however they were
      typed ("01", "+1" and "1abc" all name item 1 to the older one). */
  lemma RevisionsAgree(s: State, oldLine: string, newLine: string, fileLine: Option<string>)
    requires MenuChoiceOld(oldLine) == MenuChoice(newLine) != Invalid
    ensures StepOld(s, Interrupt(oldLine, fileLine)) == Step(s, Interrupt(newLine, fileLine))
  {
  }

  /** When both revisions find the line invalid, both keep the configuration,
      but only the current one leaves the pause. */
  lemma RevisionsDivergeOnInvalid(s: State, line: string, fileLine: Option<string>)
    requires Idle(s)
    requires MenuChoice(line) == Invalid && MenuChoiceOld(line) == Invalid
    ensures Step(s, Interrupt(line, fileLine)).config == s.config
    ensures StepOld(s, Interrupt(line, fileLine)).config == s.config
    ensures !Step(s, Interrupt(line, fileLine)).paused
    ensures StepOld(s, Interrupt(line, fileLine)).paused
  {
  }

  /** The menu item each of the lines "1", "2" and "3" names. */
  function ItemOfDigit(d: nat): Choice
    requires 1 <= d <= 3
  {
    if d == 1 then ToggleTheme else if d == 2 then NewFile else Exit
  }

  /** The lines "1", "2" and "3" name the same menu item in both revisions. */
  lemma DigitLinesAgree(d: nat)
    requires 1 <= d <= 3
    ensures MenuChoice(Decimal.Itoa(d)) == ItemOfDigit(d)
    ensures MenuChoiceOld(Decimal.Itoa(d)) == ItemOfDigit(d)
  {
    CurrentReadsDigit(d);
    OlderReadsDigit(d);
  }

  lemma CurrentReadsDigit(d: nat)
    requires 1 <= d <= 3
    ensures MenuChoice(Decimal.Itoa(d)) == ItemOfDigit(d)
  {
    var line := Decimal.Itoa(d);
    assert line == [Decimal.DigitChar(d)];
    Text.SpaceFreeField(line);
  }

  lemma OlderReadsDigit(d: nat)
    requires 1 <= d <= 3
    ensures MenuChoiceOld(Decimal.Itoa(d)) == ItemOfDigit(d)
  {
    Decimal.ScanIntOfItoa(d);
    OlderReadsNumber(Decimal.Itoa(d), d);
  }

  /** The older reading names the item the scanned number selects. */
  lemma OlderReadsNumber(line: string, n: int)
    requires Decimal.ScanInt(line) == Some(n)
    ensures 1 <= n <= 3 ==> MenuChoiceOld(line) == ItemOfDigit(n)
    ensures !(1 <= n <= 3) ==> MenuChoiceOld(line) == Invalid
  {
  }

  /** A line the %d scan cannot read leaves the choice at 0, which no item
      names. */
  lemma UnreadLineIsInvalid(line: string)
    ensures Decimal.ScanInt(line).None? ==> MenuChoiceOld(line) == Invalid
  {
  }

  /** The readings differ beyond those lines: "01" is item 1 to the older
      revision's integer scan but an invalid choice to the current one. */
  lemma LeadingZeroDiverges()
    ensures MenuChoice("01") == Invalid
    ensures MenuChoiceOld("01") == ToggleTheme
  {
    Text.SpaceFreeField("01");
    assert Text.DropWhile("01", Text.IsSpace) == "01";
    Text.TakeWhileAll("01", Decimal.IsDigit);
    assert "01"[0..] == "01";
    assert "" + "01" == "01";
    assert Decimal.DigitsValue("01") == 1 by {
      assert "01"[..1] == "0";
      assert "0"[..0] == [];
    }
    assert Decimal.ParseInt("01") == Some(1);
    assert Decimal.ScanInt("01") == Some(1);
  }
}

=== FILE: decimal.dfy ===
/** Decimal text for integers: strconv.Itoa (used for the Content-Length
    value), strconv.ParseInt with base 10 and 64 bits, and the %d operand of
    fmt.Scanf (used by the older pause menu). */
module Decimal {
  import opened Maybe
  import Text

  const INT64_MIN: int := -0x8000_0000_0000_0000
  const INT64_MAX: int := 0x7FFF_FFFF_FFFF_FFFF

  predicate IsDigit(c: char) {
    '0' <= c <= '9'
  }

  predicate AllDigits(s: string) {
    forall k :: 0 <= k < |s| ==> IsDigit(s[k])
  }

  function DigitChar(d: nat): (c: char)
    requires d < 10
    ensures IsDigit(c) && c as int - '0' as int == d
  {
    "0123456789"[d]
  }

  function DigitValue(c: char): nat
    requires IsDigit(c)
  {
    c as int - '0' as int
  }

  /** The value of a string of decimal digits, most significant first. */
  function DigitsValue(s: string): nat
    requires AllDigits(s)
  {
    if s == [] then 0 else DigitsValue(s[..|s| - 1]) * 10 + DigitValue(s[|s| - 1])
  }

  /** The canonical decimal digits of a natural number: never empty and with no
      leading zero except for zero itself. */
  function NatDigits(n: nat): (s: string)
    ensures |s| > 0 && AllDigits(s)
    ensures s[0] == '0' ==> n == 0
    decreases n
  {
    if n < 10 then [DigitChar(n)] else NatDigits(n / 10) + [DigitChar(n % 10)]
  }

  /** strconv.Itoa: a `-` sign for negative numbers, then the digits. */
  function Itoa(n: int): string {
    if n < 0 then "-" + NatDigits(-n) else NatDigits(n)
  }

  /** strconv.ParseInt(s, 10, 64): an optional `+` or `-`, then one or more
      decimal digits (no underscores with an explicit base), and the value
      must fit in 64 bits; every failure (syntax or range) is None. */
  function ParseInt(s: string): (r: Option<int>)
    ensures r.Some? ==> INT64_MIN <= r.value <= INT64_MAX
    ensures r.Some? ==> |s| > 0
  {
    if |s| == 0 then None
    else
      var neg := s[0] == '-';
      var body := if s[0] == '+' || s[0] == '-' then s[1..] else s;
      if |body| == 0 || !AllDigits(body) then None
      else
        var u: int := DigitsValue(body);
        if !neg && u > INT64_MAX then None
        else if neg && u > -INT64_MIN then None
        else Some(if neg then -u else u)
  }

  /** Reading the digits NatDigits writes gives back the number. */
  lemma {:induction false} NatDigitsValue(n: nat)
    ensures DigitsValue(NatDigits(n)) == n
    decreases n
  {
    if n >= 10 {
      var s := NatDigits(n);
      var front := NatDigits(n / 10);
      assert s == front + [DigitChar(n % 10)];
      assert s[..|s| - 1] == front;
      NatDigitsValue(n / 10);
    }
  }

  /** Itoa and ParseInt are inverse on every 64-bit integer. */
  lemma ItoaRoundTrip(n: int)
    requires INT64_MIN <= n <= INT64_MAX
    ensures ParseInt(Itoa(n)) == Some(n)
  {
    if n < 0 {
      NatDigitsValue(-n);
      ParseNegative(NatDigits(-n), -n);
    } else {
      NatDigitsValue(n);
      ParseUnsigned(NatDigits(n), n);
    }
  }

  /** The round trip for a length, stated for every length a Go slice can
      have. */
  lemma LengthRoundTrip(n: nat)
    ensures n <= INT64_MAX ==> ParseInt(Itoa(n)) == Some(n)
  {
    if n <= INT64_MAX {
      ItoaRoundTrip(n);
    }
  }

  lemma ParseNegative(digits: string, m: nat)
    requires |digits| > 0 && AllDigits(digits)
    requires DigitsValue(digits) == m <= -INT64_MIN
    ensures ParseInt("-" + digits) == Some(-(m as int))
  {
    assert ("-" + digits)[1..] == digits;
  }

  lemma ParseUnsigned(digits: string, m: nat)
    requires |digits| > 0 && AllDigits(digits)
    requires DigitsValue(digits) == m <= INT64_MAX
    ensures ParseInt(digits) == Some(m)
  {
    assert IsDigit(digits[0]);
  }

  /** What fmt.Scanf("%d\n", &choice) stores from one console line: spaces are
      skipped, an optional sign is taken, then the longest run of decimal
      digits, which must be non-empty and must parse as a 64-bit integer.
      None means the operand was left untouched. */
  function ScanInt(line: string): (r: Option<int>)
    ensures r.Some? ==> INT64_MIN <= r.value <= INT64_MAX
  {
    var rest := Text.DropWhile(line, Text.IsSpace);
    var sign := if |rest| > 0 && (rest[0] == '+' || rest[0] == '-') then rest[..1] else "";
    var digits := Text.TakeWhile(rest[|sign|..], IsDigit);
    if digits == [] then None else ParseInt(sign + digits)
  }

  /** A line holding just the decimal form of a 64-bit integer scans as that
      integer. */
  lemma ScanIntOfItoa(n: int)
    requires INT64_MIN <= n <= INT64_MAX
    ensures ScanInt(Itoa(n)) == Some(n)
  {
    var s := Itoa(n);
    assert !Text.IsSpace(s[0]);
    assert Text.DropWhile(s, Text.IsSpace) == s;
    var sign := if n < 0 then "-" else "";
    var ds := s[|sign|..];
    assert AllDigits(ds);
    Text.TakeWhileAll(ds, IsDigit);
    assert sign + ds == s;
    ItoaRoundTrip(n);
  }
}

=== FILE: maybe.dfy ===
/** Optional values: a file that could not be read, a console line that could
    not be scanned, an integer that did not parse. */
module Maybe {

  datatype Option<+T> = None | Some(value: T) {

    /** The wrapped value, or `default` when there is none. */
    function GetOr(default: T): T {
      match this
      case Some(v) => v
      case None => default
    }
  }
}

=== FILE: render.dfy ===
/** One HTTP request on the catch-all route: read the configured file, then
    answer 404, a templated HTML page, or the raw bytes. Both revisions of the
    render routine are modelled, plus the handler that picks the light or dark
    markdown converter from the configuration it reads. */
module Render {
  import opened Maybe
  import opened Structs
  import Text
  import Decimal

  /** The two markdown converters built at startup: one highlighting in the
      "monokailight" style, one in "solarized-dark". */
  datatype Renderer = LightRenderer | DarkRenderer

  /** What a conversion leaves behind: the HTML written to the buffer (partial
      output when it failed) and whether it reported success. */
  datatype Conversion = Conversion(html: string, ok: bool)

  /** The markdown engine, left uninterpreted. */
  type Converter = (Renderer, seq<byte>) -> Conversion

  /** The file system as the request sees it: the bytes of a file, or None
      when reading it fails. */
  type FileSystem = string -> Option<seq<byte>>

  /** What the handler writes back. A NotFound answer carries its plain-text
      body; a Page is the value handed to the HTML template; a Raw answer
      carries its status, the Content-Length value computed for it and the
      bytes written. */
  datatype Response =
    | NotFound(message: string)
    | Page(view: RenderedHTML)
    | Raw(status: int, contentLength: string, body: seq<byte>)
  {
    /** The HTTP status the client receives: templated pages go out with the
        implicit 200 of the first write. */
    function Status(): int {
      match this
      case NotFound(_) => 404
      case Page(_) => 200
      case Raw(status, _, _) => status
    }
  }

  const MARKDOWN_SUFFIX := ".md"

  /** The handler's dispatch: the dark converter iff the configuration it
      read is in dark mode. */
  function RendererFor(c: Config): (gm: Renderer)
    ensures gm == DarkRenderer <==> c.darkMode
  {
    if c.darkMode then DarkRenderer else LightRenderer
  }

  /** Render (lib/render): 404 with a message naming the file when it cannot
      be read; a templated page when the path ends in `.md`, whether or not the
      conversion succeeded; otherwise the file's bytes with status 200 and a
      computed decimal Content-Length (set after the status line, so never
      sent). */
  function Render(gm: Renderer, config: Config, readFile: FileSystem, convert: Converter): (r: Response)
    ensures readFile(config.fileName).None? <==> r.NotFound?
    ensures r.NotFound? ==> r.Status() == 404 && r.message == "404: \"" + config.fileName + "\" cannot be opened\n"
    ensures r.Page? <==> readFile(config.fileName).Some? && Text.HasSuffix(config.fileName, MARKDOWN_SUFFIX)
    ensures r.Page? ==>
      && r.Status() == 200
      && r.view.body == convert(gm, readFile(config.fileName).value).html
      && r.view.style == config.styleBytes
      && r.view.fileName == Text.BaseName(config.fileName)
      && Text.HasSuffix(config.fileName, r.view.fileName)
      && Text.HasSuffix(r.view.fileName, MARKDOWN_SUFFIX)
    ensures r.Raw? ==>
      && r.Status() == 200
      && r.body == readFile(config.fileName).value
      && (|r.body| <= Decimal.INT64_MAX ==> Decimal.ParseInt(r.contentLength) == Some(|r.body|))
      && |r.contentLength| > 0 && Decimal.AllDigits(r.contentLength)
      && (r.contentLength[0] == '0' ==> |r.body| == 0)
  {
    match readFile(config.fileName)
    case None =>
      NotFound("404: \"" + config.fileName + "\" cannot be opened\n")
    case Some(content) =>
      if Text.HasSuffix(config.fileName, MARKDOWN_SUFFIX) then
        var converted := convert(gm, content);
        Text.BaseNameKeepsSuffix(config.fileName, MARKDOWN_SUFFIX);
        Page(RenderedHTML(converted.html, config.styleBytes, Text.BaseName(config.fileName)))
      else
        Decimal.LengthRoundTrip(|content|);
        Raw(200, Decimal.Itoa(|content|), content)
  }

  /** The handler of the catch-all route (main.go): it reads the configuration
      once and renders with the converter that configuration selects. */
  function Handle(config: Config, readFile: FileSystem, convert: Converter): (r: Response)
    ensures config.darkMode ==> r == Render(DarkRenderer, config, readFile, convert)
    ensures !config.darkMode ==> r == Render(LightRenderer, config, readFile, convert)
  {
    Render(RendererFor(config), config, readFile, convert)
  }

  /** The older render (mds.go): 404 with a differently worded message, and
      every readable file is converted as markdown, whatever its name. */
  function RenderOld(gm: Renderer, config: Config, readFile: FileSystem, convert: Converter): (r: Response)
    ensures readFile(config.fileName).None? <==> r.NotFound?
    ensures r.NotFound? ==> r.Status() == 404 && r.message == "File \"" + config.fileName + "\" cannot be opened\n"
    ensures !r.Raw?
    ensures r.Page? ==>
      && r.Status() == 200
      && r.view.body == convert(gm, readFile(config.fileName).value).html
      && r.view.style == config.styleBytes
      && r.view.fileName == Text.BaseName(config.fileName)
  {
    match readFile(config.fileName)
    case None =>
      NotFound("File \"" + config.fileName + "\" cannot be opened\n")
    case Some(content) =>
      var converted := convert(gm, content);
      Page(RenderedHTML(converted.html, config.styleBytes, Text.BaseName(config.fileName)))
  }

  /** The older handler (mds.go), with the same dispatch on dark mode. */
  function HandleOld(config: Config, readFile: FileSystem, convert: Converter): (r: Response)
    ensures config.darkMode ==> r == RenderOld(DarkRenderer, config, readFile, convert)
    ensures !config.darkMode ==> r == RenderOld(LightRenderer, config, readFile, convert)
  {
    RenderOld(RendererFor(config), config, readFile, convert)
  }

  /** A failed conversion is only logged: two converters that write the same
      HTML give the same answer whatever success they report. */
  lemma ConversionFailureIgnored(gm: Renderer, config: Config, readFile: FileSystem, c1: Converter, c2: Converter)
    requires forall content :: c1(gm, content).html == c2(gm, content).html
    ensures Render(gm, config, readFile, c1) == Render(gm, config, readFile, c2)
    ensures RenderOld(gm, config, readFile, c1) == RenderOld(gm, config, readFile, c2)
  {
  }

  /** The two revisions agree on readable markdown files and differ only in
      the 404 wording and in how other files are served. */
  lemma RevisionsAgreeOnMarkdown(gm: Renderer, config: Config, readFile: FileSystem, convert: Converter)
    requires readFile(config.fileName).Some?
    ensures Render(gm, config, readFile, convert) == RenderOld(gm, config, readFile, convert)
      <==> Text.HasSuffix(config.fileName, MARKDOWN_SUFFIX)
  {
  }

  /** The suffix test is case-sensitive: README.MD is served raw. */
  lemma UpperCaseSuffixIsRaw(config: Config, gm: Renderer, readFile: FileSystem, convert: Converter)
    requires config.fileName == "README.MD"
    requires readFile(config.fileName).Some?
    ensures Render(gm, config, readFile, convert).Raw?
  {
    assert config.fileName[|config.fileName| - 3..] == ".MD";
  }

  /** Read from one consistent configuration, a page's
      stylesheet is the dark one exactly when the dark converter produced its
      body. */
  lemma PageThemeMatchesRenderer(config: Config, readFile: FileSystem, convert: Converter)
    requires ThemeConsistent(config)
    requires Handle(config, readFile, convert).Page?
    ensures Handle(config, readFile, convert).view.style == DARK <==> RendererFor(config) == DarkRenderer
    ensures Handle(config, readFile, convert).view.style == LIGHT <==> RendererFor(config) == LightRenderer
  {
  }
}

=== FILE: server.dfy ===
/** The server as a whole: startup, the signal loop's steps, and requests
    served in between. Each request reads one whole configuration snapshot,
    taken between two steps of the loop. */
module Server {
  import opened Maybe
  import opened Structs
  import Text
  import Render
  import Control
  import Startup

  /** A request served while the loop is in state `s`. */
  function Request(s: Control.State, readFile: Render.FileSystem, convert: Render.Converter): Render.Response
  {
    Render.Handle(s.config, readFile, convert)
  }

  /** The loop's state after startup and a list of signals. */
  function After(config: Config, es: seq<Control.Event>): Control.State {
    Control.Run(Control.Init(config), es)
  }

  /** One signal after startup is one step of the loop. */
  lemma AfterOne(c: Config, e: Control.Event)
    ensures After(c, [e]) == Control.Step(Control.Init(c), e)
  {
    var es := [e];
    assert es[1..] == [];
    assert Control.Run(Control.Init(c), es) == Control.Run(Control.Step(Control.Init(c), e), []);
  }

  /** When each request reads one whole snapshot between two passes of the
      loop, then whatever signals arrived, a page served from a started server
      carries the dark stylesheet exactly when the dark converter produced its
      body. main.go gives no such guarantee: see RacyHandle. */
  lemma NoTornTheme(f: Startup.Flags, es: seq<Control.Event>, readFile: Render.FileSystem, convert: Render.Converter)
    requires Startup.Start(f).Serve?
    ensures var s := After(Startup.Start(f).config, es);
      var r := Request(s, readFile, convert);
      r.Page? ==> (r.view.style == DARK <==> Render.RendererFor(s.config) == Render.DarkRenderer)
  {
    var c := Startup.Start(f).config;
    Control.RunKeepsTheme(Control.Init(c), es);
    var s := After(c, es);
    if Request(s, readFile, convert).Page? {
      Render.PageThemeMatchesRenderer(s.config, readFile, convert);
    }
  }

  /** Interrupt, then item 1, on a light-theme server: the next page of a
      markdown file carries the dark stylesheet, its body comes from the dark
      converter, and it shows the same file. */
  lemma ToggleThenRequest(c: Config, line: string, fileLine: Option<string>,
                          readFile: Render.FileSystem, convert: Render.Converter)
    requires ThemeConsistent(c) && !c.darkMode
    requires Control.MenuChoice(line) == Control.ToggleTheme
    requires readFile(c.fileName).Some? && Text.HasSuffix(c.fileName, Render.MARKDOWN_SUFFIX)
    ensures var r := Request(After(c, [Control.Interrupt(line, fileLine)]), readFile, convert);
      && r.Page?
      && r.view.style == DARK
      && r.view.body == convert(Render.DarkRenderer, readFile(c.fileName).value).html
      && r.view.fileName == Text.BaseName(c.fileName)
  {
    var es := [Control.Interrupt(line, fileLine)];
    Control.ToggleStep(Control.Init(c), line, fileLine);
    AfterOne(c, es[0]);
  }

  /** Interrupt, then item 2 and a name: the next request reads the new file
      and nothing else about the configuration changes. */
  lemma ChangeFileThenRequest(c: Config, line: string, name: string,
                              readFile: Render.FileSystem, convert: Render.Converter)
    requires Control.MenuChoice(line) == Control.NewFile
    requires name == [] || (name[0] != '"' && name[|name| - 1] != '"')
    ensures var r := Request(After(c, [Control.Interrupt(line, Some(name))]), readFile, convert);
      r == Render.Handle(c.(fileName := name), readFile, convert)
  {
    var es := [Control.Interrupt(line, Some(name))];
    Control.ChangeFileStep(Control.Init(c), line, Some(name));
    Text.TrimKeepsTrimmed(name, Text.IsQuote);
    AfterOne(c, es[0]);
  }

  /** Interrupt, then an invalid line: the loop is running again and the next
      request is answered exactly as before. */
  lemma InvalidThenRequest(c: Config, line: string, fileLine: Option<string>,
                           readFile: Render.FileSystem, convert: Render.Converter)
    requires Control.MenuChoice(line) == Control.Invalid
    ensures Control.Idle(After(c, [Control.Interrupt(line, fileLine)]))
    ensures Request(After(c, [Control.Interrupt(line, fileLine)]), readFile, convert)
      == Render.Handle(c, readFile, convert)
  {
    var es := [Control.Interrupt(line, fileLine)];
    Control.InvalidStep(Control.Init(c), line, fileLine);
    AfterOne(c, es[0]);
  }

  /** The handler as main.go runs it, concurrently with the loop and without
      synchronisation: it reads the dark-mode flag at one moment (main.go:86)
      and copies the configuration at a later one (main.go:87/89). When both
      reads see the same configuration it is the ordinary handler. */
  function RacyHandle(flagRead: Config, copied: Config, readFile: Render.FileSystem, convert: Render.Converter): (r: Render.Response)
    ensures flagRead == copied ==> r == Render.Handle(copied, readFile, convert)
    ensures r.Page? ==> r.view.style == copied.styleBytes
    ensures r.Page? ==>
      && readFile(copied.fileName).Some?
      && r.view.body == convert(Render.RendererFor(flagRead), readFile(copied.fileName).value).html
  {
    Render.Render(Render.RendererFor(flagRead), copied, readFile, convert)
  }

  /** Two interleavings of item 1 with a request on a light-theme server give
      a page whose stylesheet and body disagree: the whole toggle lands between
      the flag read and the copy (light body, dark stylesheet), or the request
      lands between the loop's write of the flag and its write of the
      stylesheet (dark body, light stylesheet). */
  lemma TornThemeRequests(c: Config, readFile: Render.FileSystem, convert: Render.Converter)
    requires ThemeConsistent(c) && !c.darkMode
    requires readFile(c.fileName).Some? && Text.HasSuffix(c.fileName, Render.MARKDOWN_SUFFIX)
    ensures var r := RacyHandle(c, Control.Toggle(c), readFile, convert);
      && r.Page? && r.view.style == DARK
      && r.view.body == convert(Render.LightRenderer, readFile(c.fileName).value).html
    ensures var half := c.(darkMode := true);
      var r := RacyHandle(half, half, readFile, convert);
      && r.Page? && r.view.style == LIGHT
      && r.view.body == convert(Render.DarkRenderer, readFile(c.fileName).value).html
  {
  }
}

=== FILE: startup.dfy ===
/** Startup (main.go, and the identical opening of mds.go): the command-line
    flags either end the process with the usage text or produce the initial
    configuration, whose stylesheet matches the requested theme. */
module Startup {
  import opened Maybe
  import opened Structs

  /** The parsed flags: --help, --dark, --math, --port and --file. */
  datatype Flags = Flags(help: bool, dark: bool, math: bool, port: string, file: string)

  /** The flag defaults: light theme, MathJax on, port 8080, no file. */
  const DEFAULT_FLAGS := Flags(false, false, true, "8080", "")

  const MISSING_FILE_NOTE := "Please provide a file as an argument e.g. --file=README.md"

  /** Either the usage screen (with an error line when a note was given) and
      the exit status, or the configuration to serve with and the port. */
  datatype Launch =
    | ShowUsage(errorLine: Option<string>, exitCode: int)
    | Serve(config: Config, port: string)

  /** usage(note): an error line only for a non-empty note, then exit 0. */
  function Usage(note: string): (r: Launch)
    ensures r.ShowUsage? && r.exitCode == 0
    ensures r.errorLine.None? <==> note == []
    ensures r.errorLine.Some? ==> r.errorLine.value == "Error: " + note
  {
    ShowUsage(if |note| > 0 then Some("Error: " + note) else None, 0)
  }

  /** The start of main: --help wins over everything, a missing --file is a
      usage error, and otherwise the flags are copied into the configuration
      with the stylesheet of the requested theme. */
  function Start(f: Flags): (r: Launch)
    ensures f.help ==> r == ShowUsage(None, 0)
    ensures !f.help && f.file == [] ==> r == ShowUsage(Some("Error: " + MISSING_FILE_NOTE), 0)
    ensures r.Serve? <==> !f.help && f.file != []
    ensures r.Serve? ==>
      && r.config.darkMode == f.dark
      && r.config.fileName == f.file
      && r.config.mathJax == f.math
      && r.port == f.port
      && ThemeConsistent(r.config)
      && (r.config.styleBytes == DARK <==> f.dark)
      && (r.config.styleBytes == LIGHT <==> !f.dark)
  {
    if f.help then Usage("")
    else if f.file == "" then Usage(MISSING_FILE_NOTE)
    else
      var config := Config(f.dark, f.file, f.math, []);
      var config := if f.dark then config.(styleBytes := DARK) else config.(styleBytes := LIGHT);
      Serve(config, f.port)
  }

  /** Every launch with the default flags stops at the usage screen. */
  lemma DefaultsNeedAFile()
    ensures Start(DEFAULT_FLAGS) == ShowUsage(Some("Error: " + MISSING_FILE_NOTE), 0)
  {
  }
}

=== FILE: structs.dfy ===
/** The two records the server passes around (lib/structs), and the theme
    invariant that ties the configuration's style bytes to its dark-mode flag. */
module Structs {

  newtype byte = b: int | 0 <= b < 0x100

  /** Stands for the embedded stylesheet assets/dark.out.css. Only the fact
      that it differs from LIGHT matters to the model. */
  const DARK: seq<byte> := [0x64, 0x61, 0x72, 0x6b]

  /** Stands for the embedded stylesheet assets/light.out.css. */
  const LIGHT: seq<byte> := [0x6c, 0x69, 0x67, 0x68, 0x74]

  /** The running server's configuration. */
  datatype Config = Config(
    darkMode: bool,
    fileName: string,
    mathJax: bool,
    styleBytes: seq<byte>)

  /** The value handed to the HTML template: the converted document, the
      stylesheet (the configuration's style bytes, as CSS text) and the name
      shown in the page. */
  datatype RenderedHTML = RenderedHTML(body: string, style: seq<byte>, fileName: string)

  /** The stylesheet a theme uses. */
  function StyleFor(dark: bool): (css: seq<byte>)
    ensures css == DARK <==> dark
    ensures css == LIGHT <==> !dark
  {
    if dark then DARK else LIGHT
  }

  /** The style bytes always belong to the theme the dark-mode flag names. */
  predicate ThemeConsistent(c: Config) {
    c.styleBytes == StyleFor(c.darkMode)
  }

  /** In a consistent configuration the style bytes alone tell the theme. */
  lemma ConsistentStyleTellsTheme(c: Config)
    requires ThemeConsistent(c)
    ensures c.styleBytes == DARK <==> c.darkMode
    ensures c.styleBytes == LIGHT <==> !c.darkMode
  {
  }
}

=== FILE: text.dfy ===
/** The Go standard-library string and path helpers the server relies on:
    strings.HasSuffix, strings.Trim / strings.TrimSpace, the first field that
    fmt.Scanln stores for a %s-style operand, and filepath.Split with `/` as
    the only separator. */
module Text {

  /** unicode.IsSpace (also fmt's notion of a space when scanning). */
  predicate IsSpace(c: char) {
    || c == ' '
    || '\t' <= c <= '\r'
    || c == '\U{85}' || c == '\U{A0}' || c == '\U{1680}'
    || '\U{2000}' <= c <= '\U{200A}'
    || c == '\U{2028}' || c == '\U{2029}' || c == '\U{202F}' || c == '\U{205F}' || c == '\U{3000}'
  }

  predicate NotSpace(c: char) {
    !IsSpace(c)
  }

  predicate IsQuote(c: char) {
    c == '"'
  }

  /** strings.HasSuffix: case-sensitive, byte-for-byte. */
  function HasSuffix(s: string, suffix: string): bool {
    |suffix| <= |s| && s[|s| - |suffix|..] == suffix
  }

  /** Any string ends in what was appended to it. */
  lemma HasSuffixOfAppend(p: string, suffix: string)
    ensures HasSuffix(p + suffix, suffix)
  {
    assert (p + suffix)[|p|..] == suffix;
  }

  /** Removes the leading characters satisfying `f`. */
  function DropWhile(s: string, f: char -> bool): (r: string)
    ensures |r| <= |s| && r == s[|s| - |r|..]
    ensures forall k :: 0 <= k < |s| - |r| ==> f(s[k])
    ensures r == [] || !f(r[0])
  {
    if |s| > 0 && f(s[0]) then
      var r := DropWhile(s[1..], f);
      assert forall k :: 1 <= k < |s| ==> s[1..][k - 1] == s[k];
      r
    else s
  }

  /** Removes the trailing characters satisfying `f`. */
  function DropLastWhile(s: string, f: char -> bool): (r: string)
    ensures |r| <= |s| && r == s[..|r|]
    ensures forall k :: |r| <= k < |s| ==> f(s[k])
    ensures r == [] || !f(r[|r| - 1])
  {
    if |s| > 0 && f(s[|s| - 1]) then DropLastWhile(s[..|s| - 1], f) else s
  }

  /** The longest prefix whose characters all satisfy `f`. */
  function TakeWhile(s: string, f: char -> bool): (r: string)
    ensures |r| <= |s| && r == s[..|r|]
    ensures forall k :: 0 <= k < |r| ==> f(r[k])
    ensures |r| < |s| ==> !f(s[|r|])
  {
    if |s| > 0 && f(s[0]) then [s[0]] + TakeWhile(s[1..], f) else []
  }

  /** strings.TrimFunc: removes every leading and every trailing character
      satisfying `f` (a cutset trim, not a single pair). */
  function TrimFunc(s: string, f: char -> bool): (r: string)
    ensures |r| <= |s|
    ensures r == [] || (!f(r[0]) && !f(r[|r| - 1]))
  {
    DropLastWhile(DropWhile(s, f), f)
  }

  /** strings.Trim(s, "\""). */
  function TrimQuotes(s: string): string {
    TrimFunc(s, IsQuote)
  }

  /** strings.TrimSpace. */
  function TrimSpace(s: string): string {
    TrimFunc(s, IsSpace)
  }

  /** What fmt.Scanln stores into a string operand from one console line: the
      first run of non-space characters after skipping spaces, or "" when the
      line holds none. */
  function FirstField(line: string): (field: string)
    ensures forall k :: 0 <= k < |field| ==> !IsSpace(field[k])
  {
    TakeWhile(DropWhile(line, IsSpace), NotSpace)
  }

  /** TakeWhile keeps a string whose every character qualifies. */
  lemma {:induction false} TakeWhileAll(s: string, f: char -> bool)
    requires forall k :: 0 <= k < |s| ==> f(s[k])
    ensures TakeWhile(s, f) == s
  {
    if s != [] {
      TakeWhileAll(s[1..], f);
    }
  }

  /** A string free of spaces is its own first field, and TrimSpace keeps it. */
  lemma SpaceFreeField(s: string)
    requires forall k :: 0 <= k < |s| ==> !IsSpace(s[k])
    ensures FirstField(s) == s
    ensures TrimSpace(s) == s
  {
    assert DropWhile(s, IsSpace) == s;
    TakeWhileAll(s, NotSpace);
    assert DropLastWhile(s, IsSpace) == s;
  }

  /** Dropping a run of `f`-characters in front of a string that does not
      itself start with one leaves exactly that string. */
  lemma {:induction false} DropWhileOfPrefix(p: string, x: string, f: char -> bool)
    requires forall k :: 0 <= k < |p| ==> f(p[k])
    requires x == [] || !f(x[0])
    ensures DropWhile(p + x, f) == x
  {
    if p != [] {
      assert (p + x)[1..] == p[1..] + x;
      DropWhileOfPrefix(p[1..], x, f);
    }
  }

  /** The mirror image of DropWhileOfPrefix, at the end of a string. */
  lemma {:induction false} DropLastWhileOfSuffix(x: string, q: string, f: char -> bool)
    requires forall k :: 0 <= k < |q| ==> f(q[k])
    requires x == [] || !f(x[|x| - 1])
    ensures DropLastWhile(x + q, f) == x
  {
    if q != [] {
      assert (x + q)[..|x + q| - 1] == x + q[..|q| - 1];
      DropLastWhileOfSuffix(x, q[..|q| - 1], f);
    }
  }

  /** The trim of `p + x + q` is `x`, whenever `p` and `q` consist only of
      trimmed characters and `x` neither starts nor ends with one: the result
      of a trim is fully determined by this decomposition. */
  lemma TrimOfDecomposition(p: string, x: string, q: string, f: char -> bool)
    requires forall k :: 0 <= k < |p| ==> f(p[k])
    requires forall k :: 0 <= k < |q| ==> f(q[k])
    requires x == [] || (!f(x[0]) && !f(x[|x| - 1]))
    ensures TrimFunc(p + x + q, f) == x
  {
    if x == [] {
      var pq := p + q;
      assert p + x + q == pq;
      assert forall k :: 0 <= k < |pq| ==> f(pq[k]) by {
        forall k | 0 <= k < |pq| ensures f(pq[k]) {
          if k < |p| { assert pq[k] == p[k]; } else { assert pq[k] == q[k - |p|]; }
        }
      }
      DropWhileOfPrefix(pq, [], f);
      assert pq + [] == pq;
    } else {
      assert p + x + q == p + (x + q);
      DropWhileOfPrefix(p, x + q, f);
      DropLastWhileOfSuffix(x, q, f);
    }
  }

  /** A string that neither starts nor ends with a trimmed character is left
      as it is. */
  lemma TrimKeepsTrimmed(x: string, f: char -> bool)
    requires x == [] || (!f(x[0]) && !f(x[|x| - 1]))
    ensures TrimFunc(x, f) == x
  {
    assert DropWhile(x, f) == x;
    assert DropLastWhile(x, f) == x;
  }

  /** filepath.Split with `/` as the only separator: everything up to and
      including the last separator, and the rest. */
  function Split(path: string): (parts: (string, string))
    ensures parts.0 + parts.1 == path
    ensures '/' !in parts.1
    ensures parts.0 == [] || parts.0[|parts.0| - 1] == '/'
  {
    if |path| == 0 then ("", "")
    else if path[|path| - 1] == '/' then (path, "")
    else
      var (dir, file) := Split(path[..|path| - 1]);
      assert path == path[..|path| - 1] + [path[|path| - 1]];
      (dir, file + [path[|path| - 1]])
  }

  /** The file part of a path: what follows the last `/`. */
  function BaseName(path: string): string {
    Split(path).1
  }

  /** A separator of the path lies in the directory part of any cut whose
      file part is free of separators. */
  lemma SeparatorInDirPart(path: string, dir: string, file: string, k: int)
    requires dir + file == path
    requires '/' !in file
    requires 0 <= k < |path| && path[k] == '/'
    ensures k < |dir|
  {
  }

  /** Split is the only way to cut a path into a directory part that is empty
      or ends in `/` and a file part free of `/`. */
  lemma SplitUnique(path: string, dir: string, file: string)
    requires dir + file == path
    requires '/' !in file
    requires dir == [] || dir[|dir| - 1] == '/'
    ensures Split(path) == (dir, file)
  {
    var (d0, f0) := Split(path);
    if d0 != [] {
      SeparatorInDirPart(path, dir, file, |d0| - 1);
    }
    if dir != [] {
      SeparatorInDirPart(path, d0, f0, |dir| - 1);
    }
    assert |d0| == |dir|;
    assert d0 == path[..|dir|] == dir;
    assert f0 == path[|dir|..] == file;
  }

  /** The base name is a suffix of the path; so when the path ends in a
      suffix free of `/`, the base name ends in it too. */
  lemma BaseNameKeepsSuffix(path: string, suffix: string)
    requires HasSuffix(path, suffix)
    requires '/' !in suffix
    ensures HasSuffix(path, BaseName(path))
    ensures HasSuffix(BaseName(path), suffix)
  {
    var (dir, file) := Split(path);
    assert path[|path| - |file|..] == file;
    if |suffix| <= |file| {
      assert file[|file| - |suffix|..] == path[|path| - |suffix|..];
    }
  }
}
